=== FILE: README.md ===
# Asana bulk task creation — a verified model of the reconciliation core

The script copies active client companies from HubSpot (the CRM) into Asana
(the task tracker). It makes sure every client project has one open
"Image/Design Task". A pass works in four steps:

- It fetches the companies and normalises their link properties.
- It builds a worklist of Asana project ids from each company's
  `asana_project` URL.
- For each project, it looks for an open task with the expected name.
- If there is none, it creates the task and attaches it to the project.

Every HTTP call is wrapped in an exponential-backoff retry decorator.

This project models the decisions the script makes between network calls, as
pure Dafny functions over immutable maps and sequences:

- `Wrappers`: `Option` and `Flow`. A `Flow` is `Returned(v)` or
  `Raised(exc)`, because each Python call either returns or raises. It also
  names the exception kinds the script can raise.
- `Strings`: ASCII `\W` stripping, lower-casing, and the `" -"` name cut
  (`s.split(' -')[0]`).
- `Retry`: the `retry` decorator, run over a supply of call outcomes. It
  returns the wrapper's outcome, the delays it would have slept, and the
  number of calls made.
- `ProjectRef`: `split("/")`, its inverse `Join`, and the project id
  `split("/")[-2]`.
- `Normalize`: the property rewrite inside `get_current_clients`.
- `Tasks`: the task name, the validation loop of `create_task`, and how
  `create_task` reads the creation response.
- `Existence`: the single-page decision of `check_task_exists`.
- `Reconcile`: `main`, as a fold over the worklist. The network answers come
  from an `Env` of oracle functions.
- `Scenarios`: concrete instances of the general contracts.

Notes on the source, reflected in the model:

- `secondary_user_email` is in the list of properties rewritten like URLs
  (asana-task-creation.py:82). So an e-mail address without a scheme becomes
  `http://<address>`. An empty one becomes the CRM record link. The model
  follows the code here.
- When no open match is found and the response has a `next_page` key,
  `check_task_exists` calls itself with three arguments
  (asana-task-creation.py:145). The function takes two, so this raises
  TypeError, and no second page is ever requested. The call sits outside the
  loop's `try` block (asana-task-creation.py:260 vs. :266), so the exception
  ends the pass. `Existence.Decide` returns `Raised(TypeError)` in that case,
  and `Reconcile.Reconcile` propagates it.
- None of the decorated functions returns a `requests.Response`, and none
  calls `raise_for_status()`. So the wrapper in this script only retries when
  `requests` itself raises `HTTPError`. `Retry.RunRetry` is stated for the
  general decorator, including returned error responses (`BadStatus`). Such a
  response is re-tried by a guarded call and returned as-is by the final
  call.
- `main` reads `client['properties']['asana_project']` and `['name']`
  outside the `try` block. A missing key (KeyError), a `null` name
  (AttributeError at `.split`), or a reference without `/` (IndexError at
  `[-2]`) therefore ends the pass instead of marking one project errored.
- A failure while attaching the task to the project (asana-task-creation.py:273)
  raises inside the `try` block, so the project is recorded as errored, not
  created. The response body of the attach call is never inspected.
- The test at asana-task-creation.py:268 only asks whether the `gid` key is
  present. A `gid` holding `null` passes it, so `add_project(None, gid)` is
  called and, if it does not raise, the project counts as created. The model
  keeps a missing `gid` and a null one apart for this reason.

## Model

| member | source | states |
|---|---|---|
| Retry.RunRetry | asana-task-creation.py:26-44 | At least 1 and at most max(attempts, 1) calls are made. Every call but the last had a retryable outcome (an HTTPError or an error status). There is one completed sleep per retry, each non-negative, and the k-th is delay·backoff^k (counting from 0). A guarded last call either was not retryable, so the first non-retryable outcome ends the run, or was retryable with a negative delay due, in which case `time.sleep` raises ValueError and that is the wrapper's outcome. Otherwise the wrapper's outcome is the last call's outcome; only the final unguarded call returns an error-status response instead of retrying it. |
| Retry.DelayIsGeometric | asana-task-creation.py:38-41 | Multiplying the delay by the backoff after each retry gives delay·backoff^k before retry k+1. |
| Strings.StripNonWord | asana-task-creation.py:90 | `re.sub(r'\W+', '', s)` keeps only word characters. It changes nothing when every character is a word character, and gives the empty string when none is. With `Strings.StripNonWordAppend` this fixes the result on every string. |
| Strings.Lower | asana-task-creation.py:90 | `.lower()` keeps the length, leaves no upper-case letter, leaves every other character alone, and maps each of `A`..`Z` to the letter 32 code points higher. |
| Strings.StripNonWordAppend | asana-task-creation.py:90 | Stripping non-word characters distributes over concatenation. |
| Strings.TruncateAtSeparator | asana-task-creation.py:99-100 | `s.split(' -')[0]` is a prefix of `s` with no `" -"` in it. When `s` contains `" -"`, the prefix is followed by the first `" -"`. When it does not, the prefix is all of `s`. |
| Strings.TruncateIdempotent | asana-task-creation.py:100 | Cutting a name a second time changes nothing. |
| Strings.TruncateBeforeSuffix | asana-task-creation.py:188 | Separator-free text followed by anything starting with `" -"` is cut back to that text. |
| ProjectRef.SplitOn | asana-task-creation.py:239 | `s.split("/")` has at least one part, no part contains `/`, and joining the parts with `/` gives `s` back. |
| ProjectRef.SplitAround | asana-task-creation.py:239 | Splitting `a + "/" + b` gives the parts of `a` followed by the parts of `b`. |
| ProjectRef.ProjectId | asana-task-creation.py:253 | `[-2]` of the parts exists exactly when the reference contains `/` (otherwise IndexError), and the id it yields contains no `/`. |
| ProjectRef.ProjectIdOfUrl | asana-task-creation.py:239 | For a project URL `<prefix>/<gid>/<view>` with no `/` in gid or view, the extracted id is exactly gid. |
| ProjectRef.ProjectIdOfPair | asana-task-creation.py:239 | A reference `<gid>/<view>` with a single `/` yields gid, the part before the `/`. |
| Normalize.NormalizeLink | asana-task-creation.py:86-98 | The rewritten link always starts with `http://` or `https://`. A value that is absent, null, empty, contains `<` or a space, or reads "na" once stripped and lower-cased becomes the fallback `https://app.hubspot.com/contacts/21417700/record/0-2/<id>`, even if it has a scheme. Any other value is kept exactly when it already has a scheme, and otherwise gets `http://` in front. |
| Normalize.NormalizeName | asana-task-creation.py:99-100 | A name stays present or absent. The new name is a prefix of the old one with no `" -"`. When the old name contains `" -"`, the new one ends right where the first `" -"` starts. A name without `" -"` (empty included) or a null name is unchanged. |
| Normalize.ApplyLinks | asana-task-creation.py:86-98 | The loop over the listed properties sets each one to its rewritten link, and leaves every other key's presence and value unchanged. |
| Normalize.NormalizeProps | asana-task-creation.py:82-101 | All six checked properties, `secondary_user_email` included, are present, non-empty and start with a scheme, each holding the rewrite of its old value. `name` is present exactly when it was, and holds the cut name. Every other property, `asana_project` among them, keeps its presence and value. |
| Normalize.NormalizeAll | asana-task-creation.py:84-103 | The returned clients are the search results in order, with the same ids, each with its properties normalised under its own id. |
| Normalize.NormalizeLinkIdempotent | asana-task-creation.py:86-98 | Rewriting a rewritten link gives the same link: the fallback maps to itself, and `http://` is never added twice. |
| Normalize.NormalizeIdempotent | asana-task-creation.py:86-100 | Normalising an already-normalised record with the same id changes nothing. |
| Normalize.ProjectReferenceUntouched | asana-task-creation.py:82-101 | Normalisation never adds, removes or changes `asana_project`. |
| Tasks.TaskName | asana-task-creation.py:188 | The task name ends with " - Image/Design Task Type - ASIN - Product Name". What precedes it is a prefix of the client name with no `" -"`, ending where the client name's first `" -"` starts, or the whole client name when it has none. The same formula is used at asana-task-creation.py:259. |
| Tasks.TaskNameRoundTrip | asana-task-creation.py:259 | Cutting the task name at its first `" -"` gives back the cut client name. Building the task name from the cut name gives the same task name, so the name looked for and the name created agree. |
| Tasks.TaskNameIgnoresNameNormalization | asana-task-creation.py:188 | The task name built from the normalised name equals the one built from the raw name. |
| Tasks.CheckKey | asana-task-creation.py:159-165 | A key fails as missing-or-empty exactly when it is absent, null or empty. It fails as not-a-URL exactly when it has a non-empty value, is not `secondary_user_email`, and the URL validator rejects the value. |
| Tasks.Validate | asana-task-creation.py:159-165 | Over the six required properties, validation passes exactly when each passes both tests. A failure names one of them with the reason it fails. `secondary_user_email` can only fail as missing-or-empty. |
| Tasks.FirstInvalid | asana-task-creation.py:159-165 | Validation passes exactly when every key passes both tests. When it fails, it names the first key in list order that fails, with the reason it fails (missing/empty, or not a URL for a key other than `secondary_user_email`), and all earlier keys passed. |
| Tasks.NormalizedNeverMissing | asana-task-creation.py:159-162 | On a normalised record, validation never stops at the missing-or-empty test; only the URL test can fail. |
| Tasks.CreateTask | asana-task-creation.py:155-203 | A record that fails validation yields `None` and no request is made. Otherwise the request is sent with the task name. The result raises exactly when that request raises. It is a task record exactly when the body has no `errors` key and has `data`, and that record is the body's `data`. |
| Existence.FindOpen | asana-task-creation.py:141-143 | The scan answers true exactly when some task on the page has exactly the given name and is not completed. |
| Existence.Decide | asana-task-creation.py:137-149 | An `errors` key answers false, whatever `data` holds. With `data`, the answer is true exactly on an open exact match, and the check raises exactly when there is no match and a `next_page` key is present, and then the exception is TypeError. A body with neither key answers false. A failed request propagates its exception. |
| Existence.OpenTaskIsFound | asana-task-creation.py:141-143 | A page listing the task by that name as not completed is answered true. |
| Reconcile.ProjectOf | asana-task-creation.py:249-253 | A missing `asana_project` key raises KeyError. A null or empty reference yields no id. A truthy reference yields the id `split("/")[-2]` when it contains `/`, and raises IndexError when it does not. |
| Reconcile.Worklist | asana-task-creation.py:239 | The worklist raises exactly when some client's reference raises. Otherwise it holds exactly the project ids of the clients with a truthy reference. |
| Reconcile.WorklistOne | asana-task-creation.py:239 | A single client contributes its reference's exception, its one project id, or nothing when its reference is falsy. |
| Reconcile.WorklistAppend | asana-task-creation.py:239 | The worklist of two client lists joined is the first list's worklist followed by the second's, in client order with one entry per client, so a project shared by two clients appears twice. The first raise in client order wins. |
| Reconcile.FindClient | asana-task-creation.py:249-251 | A found client is the first client whose reference yields the requested id: every client before it was read without error and yields a different id. Nothing is found exactly when that holds for all clients. A raise is the exception of a client whose reference raises, with every client before it read without error and not matching. |
| Reconcile.NameOf | asana-task-creation.py:259 | Reading the name raises KeyError exactly when the key is missing and AttributeError (at `.split`) exactly when it is null. Otherwise it returns the stored name. |
| Reconcile.ClientOutcome | asana-task-creation.py:259-279 | A found client's project is never unresolved. It raises only through reading the name or through the existence check, and then with that step's own exception. It is skipped exactly when the check answers true. It is errored only after the check answered false. It is created exactly when creation returned a record with a `gid` key, null included, and attaching that value did not raise. |
| Reconcile.ProjectOutcome | asana-task-creation.py:247-251 | A project id is unresolved exactly when the lookup finds nothing: every client's reference is read without error and none yields the id. A reference that raises before a match makes the verdict raise with that reference's exception. |
| Reconcile.Step | asana-task-creation.py:247-279 | One iteration raises exactly when that id's steps raise, with their exception. An id already processed leaves the bookkeeping unchanged, so its task list is not requested again. Otherwise the id is marked processed and its task-list request logged, unless it is unresolved. Every processed id stays in the set its verdict names, and the request log has no repeats. |
| Reconcile.Run | asana-task-creation.py:247-279 | The loop raises exactly when some id of the worklist raises, and the exception is that of the first such id in worklist order. Otherwise the processed set is the earlier one plus every resolvable id of the worklist. |
| Reconcile.Reconcile | asana-task-creation.py:239-282 | The created, errored and skipped sets are pairwise disjoint. An id is in a set exactly when it is in the worklist and its own verdict names that set, so an unresolvable id is in none. The task list is requested once for every resolvable id of the worklist and for nothing else, with no id requested twice however often it repeats. The pass raises exactly when some id's steps raise outside the `try` block, and the exception is that of the first such id, which is what the `retry` wrapper on `main` acts on. |
| Reconcile.NullGidCountsAsCreated | asana-task-creation.py:266-274 | A creation response with `"gid": null` passes the `'gid' not in` test, so the task is attached as `None`, and when that does not raise the project counts as created. |
| Reconcile.CombinedTotal | asana-task-creation.py:284-289 | After a completed pass, the reported combined total (the sum of the three set sizes) equals the number of distinct resolvable ids in the worklist. |
| Reconcile.WorklistIgnoresNormalization | asana-task-creation.py:239 | The worklist built from the normalised clients equals the one built from the raw search results. |
| Reconcile.WorklistResolves | asana-task-creation.py:239-251 | Every id of a worklist built from a client list is found again in that same list. |
| Reconcile.WorklistIsCovered | asana-task-creation.py:239-282 | Over its own worklist, a completed pass puts every worklist id in one of the three sets, and nothing else. |
| Reconcile.SkippedNeverCreates | asana-task-creation.py:260-264 | A skipped project keeps its verdict whatever the creation and attachment calls would answer, so creation is never reached. |
| Reconcile.CreatedTaskIsFound | asana-task-creation.py:259-263 | Once the project's task list shows an open task with the name the client's task is created under, the project is skipped. |
| Reconcile.SecondPassCreatesNothing | asana-task-creation.py:247-282 | Against a tracker that lists each project's task as open, a completed pass creates nothing and records no error. |
| Scenarios.WebsiteFallbackAndSchemePrefix | asana-task-creation.py:86-98 | In any record with an empty `website` and `amazon_seller_link` "amazon.com/x", the website becomes the CRM record link and the marketplace link becomes `http://amazon.com/x`. |
| Scenarios.SpaceBeatsScheme | asana-task-creation.py:90-91 | "https://a b" becomes the fallback, even though it has a scheme. |
| Scenarios.NotApplicableIsFallback | asana-task-creation.py:90-91 | "N/A" becomes the fallback. |
| Scenarios.AcmeTaskName | asana-task-creation.py:188 | "Acme Corp - US" gives the task name "Acme Corp" followed by " - Image/Design Task Type - ASIN - Product Name". |
| Scenarios.EmptyDesignBriefIsMissing | asana-task-creation.py:159-162 | With the other five properties valid, an empty `design_brief` stops validation at `design_brief` as missing. |
| Scenarios.OneTransientFailure | asana-task-creation.py:30-41 | One HTTP error followed by success, with five attempts and a non-negative delay, takes two calls and one delay of the initial length, and returns the second call's value. |
| Scenarios.NegativeDelayRaises | asana-task-creation.py:30-39 | With a negative initial delay, the first HTTP error ends the run after one call and no completed sleep, with ValueError. |

## Left out

- HTTP requests, JSON encoding, headers and credential loading
  (asana-task-creation.py:11-24). They are I/O. Their answers are the oracle
  fields of `Reconcile.Env`: `listTasks`, `postTask`, `attachRaises`, plus
  the fetched `clients`.
- The retry wrappers around `check_task_exists`, `create_task` and
  `add_project`. Each oracle of `Reconcile.Env` gives the outcome after its
  wrapper has finished. `Retry.RunRetry` models the wrapper on its own.
- The HubSpot offset pagination loop of `get_current_clients`
  (asana-task-creation.py:57-107). It is I/O. `Normalize.NormalizeAll`
  models what it does to the results it collects.
- `get_project` (asana-task-creation.py:113-118). It is never called.
- The body of `add_project` (asana-task-creation.py:212-222). Its response is
  only printed. Only whether it raised is modelled.
- `validators.url` and `validate_url` (asana-task-creation.py:46-49, :163).
  This is a foreign library whose grammar is not modelled. It enters as the
  uninterpreted predicate `isUrl`.
- `time.sleep`, `datetime.date.today()` and every `print`. The sleeps are
  returned as a list of delays.
- The HTML description and the rest of the creation payload
  (asana-task-creation.py:167-193). They are fixed text with interpolation.
  The oracle `postTask` receives the task name and the record from which
  they are built.
- Multi-page search in `check_task_exists`. The source cannot reach a second
  page (see the notes above), so only the single-page decision is modelled.
- The `retry` decorator applied to `main` itself. On an HTTPError escaping a
  pass, it would re-run the whole pass. `Reconcile.Reconcile` models one
  pass, whose `Raised` outcome is what that outer wrapper would see.
- `main` calls `get_current_clients()` twice (asana-task-creation.py:239,
  :241). The model uses one client list for both. Two fetches that differ
  are not modelled.
- The `use_gid_list` override (asana-task-creation.py:237-239).
  `Reconcile.Reconcile` takes any worklist, and `Reconcile.Worklist` builds
  the default one.
- Strings.StripNonWord: Python's `\W` and `.lower()` are Unicode-aware. The
  model treats only ASCII letters, digits and `_` as word characters and
  lower-cases only `A`..`Z`.
- Retry.RunRetry: delays are integers. The script's delays are integers
  (2, then doubled), so no floating point arises.
- The task-list oracle `listTasks` answers the same way for the whole pass:
  a task created earlier in the pass is not shown in a later listing. The
  processed-set guard (asana-task-creation.py:254-257) is instead shown to
  work through the log of task-list requests in `Reconcile.Outcome`: no
  project is checked twice.
- Existence.Decide: the shapes of `data` entries and of `paging` are
  abstracted. The model keeps each task's name and completed flag, and
  whether a `next_page` key is present.

=== FILE: existence.dfy ===
/** The decision `check_task_exists` makes from one page of a project's
    task list.

    The source recurses on a further page with three arguments into a
    two-argument function (asana-task-creation.py:145), which raises
    TypeError before any second page is requested; that is what is
    modelled here, so at most one page is ever read.
 */
module Existence {
  import opened Wrappers

  /** One task of the listing, with the two fields requested. */
  datatype TaskEntry = TaskEntry(name: string, completed: bool)

  /** The response to the task-list request: the call raised, or a JSON body
      that may hold an `errors` key, may hold a `data` list, and may hold a
      `paging` object with a `next_page` key. */
  datatype PageResponse =
    | PageRaised(exc: Error)
    | PageBody(hasErrors: bool, data: Option<seq<TaskEntry>>, hasNextPage: bool)

  /** An open task named exactly `name` is in the list. */
  ghost predicate HasOpenMatch(tasks: seq<TaskEntry>, name: string) {
    exists i :: 0 <= i < |tasks| && tasks[i].name == name && !tasks[i].completed
  }

  /** The scan over the page's tasks, stopping at the first open exact match. */
  function FindOpen(tasks: seq<TaskEntry>, name: string): (found: bool)
    ensures found <==> HasOpenMatch(tasks, name)
  {
    if tasks == [] then
      false
    else if tasks[0].name == name && !tasks[0].completed then
      true
    else
      var found := FindOpen(tasks[1..], name);
      assert forall i :: 1 <= i < |tasks| ==> tasks[i] == tasks[1..][i - 1];
      found
  }

  /** The page decision: an `errors` key answers false before `data` is
      looked at; with `data`, an open exact match answers true, no match with
      a `next_page` key raises, and no match without one answers false; any
      other body answers false. */
  function Decide(resp: PageResponse, name: string): (r: Flow<bool>)
    ensures resp.PageRaised? ==> r == Raised(resp.exc)
    ensures resp.PageBody? && resp.hasErrors ==> r == Returned(false)
    ensures resp.PageBody? && !resp.hasErrors && resp.data.Some? ==>
              && (r == Returned(true) <==> HasOpenMatch(resp.data.value, name))
              && (r.Raised? <==> !HasOpenMatch(resp.data.value, name) && resp.hasNextPage)
              && (!HasOpenMatch(resp.data.value, name) && resp.hasNextPage ==> r == Raised(TypeError))
    ensures resp.PageBody? && !resp.hasErrors && resp.data.None? ==> r == Returned(false)
  {
    match resp
    case PageRaised(e) => Raised(e)
    case PageBody(hasErrors, data, hasNextPage) =>
      if hasErrors then Returned(false)
      else if data.Some? then
        if FindOpen(data.value, name) then Returned(true)
        else if hasNextPage then Raised(TypeError)
        else Returned(false)
      else Returned(false)
  }

  /** A listing that shows the task as open is always answered true,
      whatever else the page holds. */
  lemma OpenTaskIsFound(tasks: seq<TaskEntry>, name: string, hasNextPage: bool)
    requires TaskEntry(name, false) in tasks
    ensures Decide(PageBody(false, Some(tasks), hasNextPage), name) == Returned(true)
  {
    var i :| 0 <= i < |tasks| && tasks[i] == TaskEntry(name, false);
  }
}

=== FILE: normalize.dfy ===
/** Normalisation of one CRM company record, as done for every search result
    inside `get_current_clients`.

    Six link properties are rewritten so that each holds an absolute
    `http://`/`https://` URL; a value that is missing, empty or malformed is
    replaced by a link back to the company's own record page in the CRM.
    The display name is cut at the first `" -"`. No other property changes.
 */
module Normalize {
  import opened Wrappers
  import opened Strings

  /** A record's `properties` object: property name to string or JSON `null`. */
  type Props = map<string, Option<string>>

  /** One search result: the CRM object id and its properties. */
  datatype Client = Client(id: string, props: Props)

  /** The properties rewritten to links, in the order the source visits them.
      The contact e-mail is among them, so it is treated like a URL too. */
  const CheckedKeys: seq<string> :=
    ["govisually_link", "amazon_seller_link", "google_folder", "website", "design_brief", "secondary_user_email"]

  const NameKey: string := "name"

  /** The record-view URL of a company in the CRM account. */
  const FallbackPrefix: string := Https + "app.hubspot.com/contacts/21417700/record/0-2/"

  const Http: string := "http://"
  const Https: string := "https://"

  function Fallback(id: string): string {
    FallbackPrefix + id
  }

  /** `props.get(key)`: an absent key reads like `null`. */
  function Lookup(props: Props, key: string): Option<string> {
    if key in props then props[key] else None
  }

  /** Python truthiness of an optional string: present and non-empty. */
  predicate Truthy(v: Option<string>) {
    v.Some? && v.value != ""
  }

  /** A value that stands for "no link": it contains `<` or a space, or it
      reads "na" once non-word characters are stripped and case is ignored. */
  predicate Unusable(s: string) {
    '<' in s || ' ' in s || Lower(StripNonWord(s)) == "na"
  }

  predicate HasScheme(s: string) {
    StartsWith(s, Http) || StartsWith(s, Https)
  }

  /** The rewrite applied to one link property. The fallback tests come
      first, so an unusable value is replaced even if it has a scheme. */
  function NormalizeLink(v: Option<string>, id: string): (r: string)
    ensures HasScheme(r)
    ensures !Truthy(v) || Unusable(v.value) ==> r == Fallback(id)
    ensures Truthy(v) && !Unusable(v.value) ==>
              (r == v.value <==> HasScheme(v.value)) && (r == v.value || r == Http + v.value)
  {
    FallbackHasScheme(id);
    if !Truthy(v) || Unusable(v.value) then
      Fallback(id)
    else if !HasScheme(v.value) then
      assert (Http + v.value)[..|Http|] == Http;
      Http + v.value
    else
      v.value
  }

  /** The name rewrite: a non-empty name containing `" -"` keeps only what
      precedes the first `" -"`; anything else, `null` included, is kept. */
  function NormalizeName(v: Option<string>): (r: Option<string>)
    ensures r.Some? <==> v.Some?
    ensures r.Some? ==> r.value <= v.value && !HasSeparator(r.value)
    ensures v.Some? && !HasSeparator(v.value) ==> r == v
    ensures v.Some? && HasSeparator(v.value) ==> SeparatorAt(v.value, |r.value|)
  {
    if Truthy(v) && HasSeparator(v.value) then Some(TruncateAtSeparator(v.value)) else v
  }

  predicate Distinct(keys: seq<string>) {
    forall i, j :: 0 <= i < j < |keys| ==> keys[i] != keys[j]
  }

  /** The loop over the checked properties: each key in turn gets the
      rewritten value; every other entry of the map is left as it was. */
  function ApplyLinks(keys: seq<string>, props: Props, id: string): (r: Props)
    requires Distinct(keys)
    ensures forall k :: k in keys ==> k in r && r[k] == Some(NormalizeLink(Lookup(props, k), id))
    ensures forall k :: k !in keys ==> (k in r <==> k in props)
    ensures forall k :: k !in keys && k in props ==> r[k] == props[k]
  {
    if keys == [] then
      props
    else
      var k := keys[0];
      var next := props[k := Some(NormalizeLink(Lookup(props, k), id))];
      assert forall j :: j in keys[1..] ==> j != k && Lookup(next, j) == Lookup(props, j);
      ApplyLinks(keys[1..], next, id)
  }

  /** The full normalisation of a record's properties. */
  function NormalizeProps(props: Props, id: string): (r: Props)
    ensures forall k :: k in CheckedKeys ==>
              k in r && r[k] == Some(NormalizeLink(Lookup(props, k), id))
    ensures forall k :: k in CheckedKeys ==> k in r && Truthy(r[k]) && HasScheme(r[k].value)
    ensures NameKey in r <==> NameKey in props
    ensures NameKey in props ==> r[NameKey] == NormalizeName(props[NameKey])
    ensures forall k :: k !in CheckedKeys && k != NameKey ==> (k in r <==> k in props)
    ensures forall k :: k !in CheckedKeys && k != NameKey && k in props ==> r[k] == props[k]
  {
    assert NameKey !in CheckedKeys;
    var linked := ApplyLinks(CheckedKeys, props, id);
    if NameKey in linked then linked[NameKey := NormalizeName(linked[NameKey])] else linked
  }

  function NormalizeClient(c: Client): Client {
    Client(c.id, NormalizeProps(c.props, c.id))
  }

  /** The clients `get_current_clients` returns for the search results:
      the same records, in the same order, each normalised with its own id. */
  function NormalizeAll(results: seq<Client>): (clients: seq<Client>)
    ensures |clients| == |results|
    ensures forall i :: 0 <= i < |results| ==>
              clients[i].id == results[i].id && clients[i].props == NormalizeProps(results[i].props, results[i].id)
  {
    if results == [] then [] else [NormalizeClient(results[0])] + NormalizeAll(results[1..])
  }

  lemma FallbackHasScheme(id: string)
    ensures StartsWith(Fallback(id), Https)
  {
    assert Fallback(id)[..|Https|] == Https;
  }

  /** A link with `http://` put in front never reads "na" once stripped:
      the scheme alone leaves four word characters. */
  lemma PrefixedLinkIsNotNa(s: string)
    ensures |StripNonWord(Http + s)| >= 4
    ensures Lower(StripNonWord(Http + s)) != "na"
  {
    StripNonWordAppend(Http, s);
    assert StripNonWord(Http) == "http";
  }

  /** A value with a scheme that is usable, or is the fallback itself, is
      left as it is. */
  lemma NormalizeLinkFixedPoint(t: string, id: string)
    requires HasScheme(t)
    requires Unusable(t) ==> t == Fallback(id)
    ensures NormalizeLink(Some(t), id) == t
  {
  }

  /** Re-normalising a link that normalisation produced gives it back. */
  lemma NormalizeLinkIdempotent(v: Option<string>, id: string)
    ensures NormalizeLink(Some(NormalizeLink(v, id)), id) == NormalizeLink(v, id)
  {
    var r := NormalizeLink(v, id);
    if Truthy(v) && !Unusable(v.value) && !HasScheme(v.value) {
      var s := v.value;
      assert r == Http + s;
      PrefixedLinkIsNotNa(s);
      assert !Unusable(r);
    }
    NormalizeLinkFixedPoint(r, id);
  }

  /** Normalising an already-normalised record with the same id changes nothing. */
  lemma NormalizeIdempotent(props: Props, id: string)
    ensures NormalizeProps(NormalizeProps(props, id), id) == NormalizeProps(props, id)
  {
    var once := NormalizeProps(props, id);
    var twice := NormalizeProps(once, id);
    forall k | k in once
      ensures k in twice && twice[k] == once[k]
    {
      if k in CheckedKeys {
        NormalizeLinkIdempotent(Lookup(props, k), id);
      } else if k == NameKey && props[k].Some? {
        TruncateIdempotent(props[k].value);
      }
    }
    assert twice.Keys == once.Keys;
  }

  /** The property named `asana_project` is never touched. */
  lemma ProjectReferenceUntouched(props: Props, id: string)
    ensures "asana_project" in NormalizeProps(props, id) <==> "asana_project" in props
    ensures "asana_project" in props ==> NormalizeProps(props, id)["asana_project"] == props["asana_project"]
  {
  }
}

=== FILE: projectref.dfy ===
/** The project-id extraction used by the reconciliation loop:
    `asana_project.split("/")[-2]`, the path segment before the last one. */
module ProjectRef {
  import opened Wrappers

  /** Python's `s.split(sep)` for a one-character separator: always at least
      one part, none containing the separator. */
  function SplitOn(s: string, sep: char): (parts: seq<string>)
    ensures |parts| >= 1
    ensures forall i :: 0 <= i < |parts| ==> sep !in parts[i]
    ensures Join(parts, sep) == s
  {
    if s == [] then
      [[]]
    else
      var tail := SplitOn(s[1..], sep);
      if s[0] == sep then
        [[]] + tail
      else
        assert s == [s[0]] + Join(tail, sep);
        JoinConsFirst(s[0], tail, sep);
        [[s[0]] + tail[0]] + tail[1..]
  }

  /** `sep.join(parts)`, the inverse of `SplitOn`. */
  function Join(parts: seq<string>, sep: char): string
    requires |parts| >= 1
  {
    if |parts| == 1 then parts[0] else parts[0] + [sep] + Join(parts[1..], sep)
  }

  lemma JoinConsFirst(c: char, parts: seq<string>, sep: char)
    requires |parts| >= 1
    ensures Join([[c] + parts[0]] + parts[1..], sep) == [c] + Join(parts, sep)
  {
    var q := [[c] + parts[0]] + parts[1..];
    assert q[1..] == parts[1..];
  }

  /** Splitting `a + [sep] + b` gives the parts of `a` followed by the parts of `b`. */
  lemma {:induction false} SplitAround(a: string, sep: char, b: string)
    ensures SplitOn(a + [sep] + b, sep) == SplitOn(a, sep) + SplitOn(b, sep)
  {
    if a == [] {
      assert a + [sep] + b == [sep] + b;
      assert ([sep] + b)[1..] == b;
    } else {
      assert (a + [sep] + b)[1..] == a[1..] + [sep] + b;
      SplitAround(a[1..], sep, b);
    }
  }

  /** A string without the separator splits into itself alone. */
  lemma {:induction false} SplitNoSeparator(s: string, sep: char)
    requires sep !in s
    ensures SplitOn(s, sep) == [s]
  {
    var p := SplitOn(s, sep);
    if |p| > 1 {
      JoinLongContainsSep(p, sep);
    }
  }

  lemma {:induction false} JoinLongContainsSep(parts: seq<string>, sep: char)
    requires |parts| >= 2
    ensures sep in Join(parts, sep)
  {
    var j := Join(parts, sep);
    assert j[|parts[0]|] == sep;
  }

  /** `asana_project.split("/")[-2]`; a reference with no `/` has a single
      part, so `[-2]` raises IndexError, modelled as `None`. */
  function ProjectId(reference: string): (gid: Option<string>)
    ensures gid.Some? <==> '/' in reference
    ensures gid.Some? ==> '/' !in gid.value
  {
    var parts := SplitOn(reference, '/');
    if |parts| < 2 then
      None
    else
      JoinLongContainsSep(parts, '/');
      Some(parts[|parts| - 2])
  }

  /** A project URL `<prefix>/<gid>/<view>` yields its gid back. */
  lemma ProjectIdOfUrl(prefix: string, gid: string, view: string)
    requires '/' !in gid && '/' !in view
    ensures ProjectId(prefix + "/" + gid + "/" + view) == Some(gid)
  {
    var url := prefix + "/" + gid + "/" + view;
    assert url == prefix + ['/'] + (gid + ['/'] + view);
    SplitAround(prefix, '/', gid + ['/'] + view);
    SplitAround(gid, '/', view);
    SplitNoSeparator(gid, '/');
    SplitNoSeparator(view, '/');
  }

  /** A reference with exactly one `/` yields the part before it, as
      `"a/b".split("/")[-2] == "a"`. */
  lemma ProjectIdOfPair(gid: string, view: string)
    requires '/' !in gid && '/' !in view
    ensures ProjectId(gid + "/" + view) == Some(gid)
  {
    assert gid + "/" + view == gid + ['/'] + view;
    SplitAround(gid, '/', view);
    SplitNoSeparator(gid, '/');
    SplitNoSeparator(view, '/');
  }
}

=== FILE: reconcile.dfy ===
/** One pass of `main`: build the worklist of project ids, then for each id
    find the client behind it, and skip, create or record an error.

    Every network call is an oracle in `Env`. An exception raised outside the
    loop's `try` block (resolving the client, reading its name, checking for
    an existing task) ends the whole pass; one raised inside it (creating or
    attaching the task) only marks that project as errored.
 */
module Reconcile {
  import opened Wrappers
  import opened Normalize
  import opened ProjectRef
  import opened Tasks
  import opened Existence

  /** The fetched clients and the answers of the collaborators.
      `listTasks(project)` is the task-list response for a project,
      `postTask(name, props)` the creation response for a payload, and
      `attachRaises(task, project)` whether attaching the task raised; the
      task id is `None` when the creation response held `"gid": null`.
      Each answer is the one left once the call's retry wrapper has finished. */
  datatype Env = Env(
    clients: seq<Client>,
    isUrl: string -> bool,
    listTasks: string -> PageResponse,
    postTask: (string, Props) -> CreateResponse,
    attachRaises: (Option<string>, string) -> bool)

  const ProjectKey: string := "asana_project"

  /** `client['properties']['asana_project']` and, when it is truthy, its
      project id. `Returned(None)` is a falsy reference. */
  function ProjectOf(c: Client): (r: Flow<Option<string>>)
    ensures r.Returned? && r.value.Some? ==>
              ProjectKey in c.props && Truthy(c.props[ProjectKey]) && ProjectId(c.props[ProjectKey].value) == r.value
    ensures r == Raised(KeyError) <==> ProjectKey !in c.props
    ensures ProjectKey in c.props && !Truthy(c.props[ProjectKey]) ==> r == Returned(None)
    ensures ProjectKey in c.props && Truthy(c.props[ProjectKey]) ==>
              r == if '/' in c.props[ProjectKey].value then Returned(ProjectId(c.props[ProjectKey].value))
                   else Raised(IndexError)
  {
    if ProjectKey !in c.props then Raised(KeyError)
    else if !Truthy(c.props[ProjectKey]) then Returned(None)
    else match ProjectId(c.props[ProjectKey].value)
      case None => Raised(IndexError)
      case Some(gid) => Returned(Some(gid))
  }

  /** The worklist comprehension: the project id of every client with a
      truthy reference, in client order. */
  function Worklist(clients: seq<Client>): (r: Flow<seq<string>>)
    ensures r.Raised? <==> exists i :: 0 <= i < |clients| && ProjectOf(clients[i]).Raised?
    ensures r.Returned? ==> forall g :: g in r.value <==>
              exists i :: 0 <= i < |clients| && ProjectOf(clients[i]) == Returned(Some(g))
  {
    if clients == [] then
      Returned([])
    else
      assert forall i :: 1 <= i < |clients| ==> clients[i] == clients[1..][i - 1];
      match ProjectOf(clients[0])
      case Raised(e) => Raised(e)
      case Returned(head) =>
        match Worklist(clients[1..])
        case Raised(e) => Raised(e)
        case Returned(rest) =>
          Returned(if head.Some? then [head.value] + rest else rest)
  }

  /** None of the first `n` clients raises or yields `gid`. */
  ghost predicate NoMatchBefore(clients: seq<Client>, gid: string, n: int)
    requires 0 <= n <= |clients|
  {
    forall j :: 0 <= j < n ==> ProjectOf(clients[j]).Returned? && ProjectOf(clients[j]) != Returned(Some(gid))
  }

  /** The worklist of one client: its raise, its project id, or nothing. */
  lemma WorklistOne(c: Client)
    ensures ProjectOf(c).Raised? ==> Worklist([c]) == Raised(ProjectOf(c).exc)
    ensures ProjectOf(c) == Returned(None) ==> Worklist([c]) == Returned([])
    ensures ProjectOf(c).Returned? && ProjectOf(c).value.Some? ==> Worklist([c]) == Returned([ProjectOf(c).value.value])
  {
    var one := [c];
    assert one[0] == c && one[1..] == [];
    assert Worklist(one[1..]) == Returned([]);
    match ProjectOf(c)
    case Raised(e) =>
      assert Worklist(one) == Raised(e);
    case Returned(None) =>
      assert Worklist(one) == Returned([]);
    case Returned(Some(g)) =>
      assert Worklist(one) == Returned([g] + []);
      assert [g] + [] == [g];
  }

  /** The comprehension keeps client order and gives one entry per client:
      the worklist of `a + b` is that of `a` followed by that of `b`, and the
      first raise, in client order, wins. */
  lemma {:induction false} WorklistAppend(a: seq<Client>, b: seq<Client>)
    ensures Worklist(a + b) ==
              if Worklist(a).Raised? then Worklist(a)
              else if Worklist(b).Raised? then Worklist(b)
              else Returned(Worklist(a).value + Worklist(b).value)
  {
    if a == [] {
      assert a + b == b;
      assert Worklist(a) == Returned([]);
      if Worklist(b).Returned? {
        assert [] + Worklist(b).value == Worklist(b).value;
      }
    } else {
      var p := ProjectOf(a[0]);
      assert a == [a[0]] + a[1..];
      assert a + b == [a[0]] + (a[1..] + b);
      WorklistAppend(a[1..], b);
      WorklistCons(a[0], a[1..]);
      WorklistCons(a[0], a[1..] + b);
      PrependCat(p, Worklist(a[1..]), Worklist(b));
    }
  }

  /** Putting a client's outcome in front of a worklist outcome. */
  function Prepend(p: Flow<Option<string>>, w: Flow<seq<string>>): Flow<seq<string>> {
    match p
    case Raised(e) => Raised(e)
    case Returned(head) =>
      match w
      case Raised(e) => Raised(e)
      case Returned(rest) => Returned(if head.Some? then [head.value] + rest else rest)
  }

  /** Joining two worklist outcomes, the first raise winning. */
  function Cat(x: Flow<seq<string>>, y: Flow<seq<string>>): Flow<seq<string>> {
    if x.Raised? then x else if y.Raised? then y else Returned(x.value + y.value)
  }

  lemma PrependCat(p: Flow<Option<string>>, x: Flow<seq<string>>, y: Flow<seq<string>>)
    ensures Prepend(p, Cat(x, y)) == Cat(Prepend(p, x), y)
  {
    if p.Returned? && p.value.Some? && x.Returned? && y.Returned? {
      assert [p.value.value] + (x.value + y.value) == ([p.value.value] + x.value) + y.value;
    }
  }

  /** One unfolding of `Worklist` on a list with a first client. */
  lemma WorklistCons(c: Client, rest: seq<Client>)
    ensures Worklist([c] + rest) == Prepend(ProjectOf(c), Worklist(rest))
  {
    var s := [c] + rest;
    assert s[0] == c && s[1..] == rest;
  }

  /** The `next(...)` lookup: the first client whose reference yields `gid`.
      Clients are examined in order, so a client before the match whose
      reference raises ends the lookup with that exception. */
  function FindClient(clients: seq<Client>, gid: string): (r: Flow<Option<Client>>)
    ensures r.Returned? && r.value.Some? ==>
              exists i :: 0 <= i < |clients| && clients[i] == r.value.value
                          && ProjectOf(clients[i]) == Returned(Some(gid)) && NoMatchBefore(clients, gid, i)
    ensures r == Returned(None) <==> NoMatchBefore(clients, gid, |clients|)
    ensures r.Raised? ==>
              exists i :: 0 <= i < |clients| && ProjectOf(clients[i]) == Raised(r.exc) && NoMatchBefore(clients, gid, i)
  {
    if clients == [] then
      Returned(None)
    else
      match ProjectOf(clients[0])
      case Raised(e) =>
        assert NoMatchBefore(clients, gid, 0);
        Raised(e)
      case Returned(p) =>
        if p == Some(gid) then
          assert NoMatchBefore(clients, gid, 0);
          Returned(Some(clients[0]))
        else
          var r := FindClient(clients[1..], gid);
          ShiftNoMatch(clients, gid);
          assert r.Returned? && r.value.Some? ==>
            exists i :: 0 <= i < |clients| && clients[i] == r.value.value
                        && ProjectOf(clients[i]) == Returned(Some(gid)) && NoMatchBefore(clients, gid, i) by {
            if r.Returned? && r.value.Some? {
              var i :| 0 <= i < |clients| - 1 && clients[1..][i] == r.value.value
                       && ProjectOf(clients[1..][i]) == Returned(Some(gid)) && NoMatchBefore(clients[1..], gid, i);
              assert clients[i + 1] == clients[1..][i];
            }
          }
          assert r.Raised? ==>
            exists i :: 0 <= i < |clients| && ProjectOf(clients[i]) == Raised(r.exc) && NoMatchBefore(clients, gid, i) by {
            if r.Raised? {
              var i :| 0 <= i < |clients| - 1 && ProjectOf(clients[1..][i]) == Raised(r.exc)
                       && NoMatchBefore(clients[1..], gid, i);
              assert clients[i + 1] == clients[1..][i];
            }
          }
          r
  }

  /** Skipping a first client that neither raises nor matches shifts the
      no-match prefix by one. */
  lemma ShiftNoMatch(clients: seq<Client>, gid: string)
    requires |clients| >= 1
    requires ProjectOf(clients[0]).Returned? && ProjectOf(clients[0]) != Returned(Some(gid))
    ensures forall n :: 0 <= n < |clients| ==>
              (NoMatchBefore(clients[1..], gid, n) <==> NoMatchBefore(clients, gid, n + 1))
  {
    forall n | 0 <= n < |clients|
      ensures NoMatchBefore(clients[1..], gid, n) <==> NoMatchBefore(clients, gid, n + 1)
    {
      assert forall j :: 1 <= j < n + 1 ==> clients[j] == clients[1..][j - 1];
    }
  }

  /** `client['properties']['name']` as a string: a missing key raises
      KeyError and `null` raises AttributeError at `.split`. */
  function NameOf(c: Client): (r: Flow<string>)
    ensures r == Raised(KeyError) <==> NameKey !in c.props
    ensures r == Raised(AttributeError) <==> NameKey in c.props && c.props[NameKey].None?
    ensures r.Returned? ==> NameKey in c.props && c.props[NameKey] == Some(r.value)
  {
    if NameKey !in c.props then Raised(KeyError)
    else match c.props[NameKey]
      case None => Raised(AttributeError)
      case Some(n) => Returned(n)
  }

  /** Where one project id ends up. */
  datatype Verdict = Unresolved | Skipped | Errored | Created

  /** The steps for a project whose client `c` was found: check for the task,
      and if it is absent create it and attach it to the project. */
  function ClientOutcome(env: Env, gid: string, c: Client): (r: Flow<Verdict>)
    ensures r != Returned(Unresolved)
    ensures r.Raised? ==> NameOf(c).Raised?
                          || Decide(env.listTasks(gid), TaskName(NameOf(c).value)).Raised?
    ensures NameOf(c).Raised? ==> r == Raised(NameOf(c).exc)
    ensures NameOf(c).Returned? && Decide(env.listTasks(gid), TaskName(NameOf(c).value)).Raised? ==>
              r == Raised(Decide(env.listTasks(gid), TaskName(NameOf(c).value)).exc)
    ensures r == Returned(Skipped) <==>
              NameOf(c).Returned? && Decide(env.listTasks(gid), TaskName(NameOf(c).value)) == Returned(true)
    ensures r == Returned(Errored) ==>
              NameOf(c).Returned? && Decide(env.listTasks(gid), TaskName(NameOf(c).value)) == Returned(false)
    ensures r == Returned(Created) <==>
              && NameOf(c).Returned?
              && Decide(env.listTasks(gid), TaskName(NameOf(c).value)) == Returned(false)
              && var task := CreateTask(NameOf(c).value, c.props, env.isUrl, env.postTask);
              && task.Returned? && task.value.Some? && task.value.value.gid.Some?
              && !env.attachRaises(task.value.value.gid.value, gid)
  {
    match NameOf(c)
    case Raised(e) => Raised(e)
    case Returned(name) =>
      var taskName := TaskName(name);
      match Decide(env.listTasks(gid), taskName)
      case Raised(e) => Raised(e)
      case Returned(exists_) =>
        if exists_ then
          Returned(Skipped)
        else
          match CreateTask(name, c.props, env.isUrl, env.postTask)
          case Raised(_) => Returned(Errored)
          case Returned(None) => Returned(Errored)
          case Returned(Some(task)) =>
            if task.gid.None? then Returned(Errored)
            else if env.attachRaises(task.gid.value, gid) then Returned(Errored)
            else Returned(Created)
  }

  /** The per-project state machine: `pending` to one terminal verdict. */
  function ProjectOutcome(env: Env, gid: string): (r: Flow<Verdict>)
    ensures r == Returned(Unresolved) <==> FindClient(env.clients, gid) == Returned(None)
    ensures FindClient(env.clients, gid).Raised? ==> r == Raised(FindClient(env.clients, gid).exc)
  {
    match FindClient(env.clients, gid)
    case Raised(e) => Raised(e)
    case Returned(None) => Returned(Unresolved)
    case Returned(Some(c)) => ClientOutcome(env, gid, c)
  }

  /** The loop's bookkeeping: the processed-id guard, the three result sets,
      and `checks`, the project ids whose task list was requested, in order. */
  datatype Tally = Tally(processed: set<string>, created: set<string>, errored: set<string>, skipped: set<string>,
                         checks: seq<string>)

  /** What the bookkeeping means: every processed id is in exactly the set
      its verdict names, nothing else is in any set, and the task list of each
      processed id was requested exactly once. */
  ghost predicate Faithful(env: Env, t: Tally) {
    && Distinct(t.checks)
    && (forall g :: g in t.checks <==> g in t.processed)
    && (forall g :: g in t.processed ==> ProjectOutcome(env, g).Returned? && ProjectOutcome(env, g).value != Unresolved)
    && (forall g :: g in t.created <==> g in t.processed && ProjectOutcome(env, g) == Returned(Created))
    && (forall g :: g in t.errored <==> g in t.processed && ProjectOutcome(env, g) == Returned(Errored))
    && (forall g :: g in t.skipped <==> g in t.processed && ProjectOutcome(env, g) == Returned(Skipped))
  }

  /** One iteration of the loop for `gid`. An id already processed leaves
      the bookkeeping as it was, so its task list is not requested again. */
  function Step(env: Env, t: Tally, gid: string): (r: Flow<Tally>)
    requires Faithful(env, t)
    ensures r.Raised? <==> ProjectOutcome(env, gid).Raised?
    ensures r.Raised? ==> r.exc == ProjectOutcome(env, gid).exc
    ensures r.Returned? ==> Faithful(env, r.value)
    ensures gid in t.processed ==> r == Returned(t)
    ensures r.Returned? ==>
              r.value.processed == t.processed + (if ProjectOutcome(env, gid) == Returned(Unresolved) then {} else {gid})
    ensures r.Returned? ==>
              r.value.checks == t.checks + (if gid in t.processed || ProjectOutcome(env, gid) == Returned(Unresolved)
                                            then [] else [gid])
  {
    match FindClient(env.clients, gid)
    case Raised(e) => Raised(e)
    case Returned(None) => Returned(t)
    case Returned(Some(c)) =>
      // The client was found through its own reference, so its project id is `gid`.
      if gid in t.processed then
        Returned(t)
      else
        var t' := t.(processed := t.processed + {gid}, checks := t.checks + [gid]);
        match ClientOutcome(env, gid, c)
        case Raised(e) => Raised(e)
        case Returned(v) =>
          Returned(match v
            case Skipped => t'.(skipped := t'.skipped + {gid})
            case Errored => t'.(errored := t'.errored + {gid})
            case Created => t'.(created := t'.created + {gid})
            case Unresolved => t')
  }

  /** No id among the first `n` of the worklist raises. */
  ghost predicate NoRaiseBefore(env: Env, worklist: seq<string>, n: int)
    requires 0 <= n <= |worklist|
  {
    forall j :: 0 <= j < n ==> ProjectOutcome(env, worklist[j]).Returned?
  }

  /** The loop over the rest of the worklist. A raise is the exception of
      the first id, in worklist order, whose steps raise. */
  function Run(env: Env, t: Tally, worklist: seq<string>): (r: Flow<Tally>)
    requires Faithful(env, t)
    ensures r.Raised? <==> exists i :: 0 <= i < |worklist| && ProjectOutcome(env, worklist[i]).Raised?
    ensures r.Raised? ==>
              exists i :: 0 <= i < |worklist| && ProjectOutcome(env, worklist[i]) == Raised(r.exc)
                          && NoRaiseBefore(env, worklist, i)
    ensures r.Returned? ==> Faithful(env, r.value)
    ensures r.Returned? ==> forall g :: g in r.value.processed <==>
              g in t.processed || (g in worklist && ProjectOutcome(env, g) != Returned(Unresolved))
    decreases |worklist|
  {
    if worklist == [] then
      Returned(t)
    else
      assert forall i :: 1 <= i < |worklist| ==> worklist[i] == worklist[1..][i - 1];
      match Step(env, t, worklist[0])
      case Raised(e) =>
        assert NoRaiseBefore(env, worklist, 0);
        Raised(e)
      case Returned(t') =>
        var r := Run(env, t', worklist[1..]);
        if r.Raised? then
          FirstRaiseShifts(env, worklist, r.exc);
          r
        else
          r
  }

  /** A first raise in the rest of the worklist, after a first id that does
      not raise, is the first raise of the whole worklist. */
  lemma FirstRaiseShifts(env: Env, worklist: seq<string>, e: Error)
    requires |worklist| >= 1 && ProjectOutcome(env, worklist[0]).Returned?
    requires exists i :: 0 <= i < |worklist| - 1 && ProjectOutcome(env, worklist[1..][i]) == Raised(e)
                         && NoRaiseBefore(env, worklist[1..], i)
    ensures exists i :: 0 <= i < |worklist| && ProjectOutcome(env, worklist[i]) == Raised(e)
                        && NoRaiseBefore(env, worklist, i)
  {
    var i :| 0 <= i < |worklist| - 1 && ProjectOutcome(env, worklist[1..][i]) == Raised(e)
             && NoRaiseBefore(env, worklist[1..], i);
    assert worklist[i + 1] == worklist[1..][i];
    assert forall j :: 1 <= j < i + 1 ==> worklist[j] == worklist[1..][j - 1];
    assert NoRaiseBefore(env, worklist, i + 1);
  }

  /** The three result sets `main` returns, and the project ids whose task
      list the pass requested, in order. */
  datatype Outcome = Outcome(created: set<string>, errored: set<string>, skipped: set<string>, checks: seq<string>)

  /** One pass of `main` over `worklist`. The sets are pairwise disjoint,
      each id lands in the set its verdict names (so an unresolvable id is in
      none), the task list of every resolvable id is requested exactly once
      however often the id repeats, and the pass raises exactly when some
      id's steps raise outside the `try` block, with the exception of the
      first such id. */
  function Reconcile(env: Env, worklist: seq<string>): (r: Flow<Outcome>)
    ensures r.Raised? <==> exists i :: 0 <= i < |worklist| && ProjectOutcome(env, worklist[i]).Raised?
    ensures r.Raised? ==>
              exists i :: 0 <= i < |worklist| && ProjectOutcome(env, worklist[i]) == Raised(r.exc)
                          && NoRaiseBefore(env, worklist, i)
    ensures r.Returned? ==>
              && r.value.created !! r.value.errored
              && r.value.created !! r.value.skipped
              && r.value.errored !! r.value.skipped
    ensures r.Returned? ==> forall g ::
              && (g in r.value.created <==> g in worklist && ProjectOutcome(env, g) == Returned(Created))
              && (g in r.value.errored <==> g in worklist && ProjectOutcome(env, g) == Returned(Errored))
              && (g in r.value.skipped <==> g in worklist && ProjectOutcome(env, g) == Returned(Skipped))
    ensures r.Returned? ==> Distinct(r.value.checks)
    ensures r.Returned? ==> forall g :: g in r.value.checks <==> g in worklist && ProjectOutcome(env, g) != Returned(Unresolved)
  {
    match Run(env, Tally({}, {}, {}, {}, []), worklist)
    case Raised(e) => Raised(e)
    case Returned(t) => Returned(Outcome(t.created, t.errored, t.skipped, t.checks))
  }

  /** The combined total reported after a pass, the sum of the three set
      sizes, is the number of distinct resolvable ids in the worklist. */
  lemma CombinedTotal(env: Env, worklist: seq<string>)
    requires Reconcile(env, worklist).Returned?
    ensures var o := Reconcile(env, worklist).value;
            |o.created| + |o.errored| + |o.skipped|
            == |set g | g in worklist && ProjectOutcome(env, g) != Returned(Unresolved)|
  {
    var o := Reconcile(env, worklist).value;
    var resolvable := set g | g in worklist && ProjectOutcome(env, g) != Returned(Unresolved);
    forall g | g in resolvable
      ensures g in o.created || g in o.errored || g in o.skipped
    {
      var i :| 0 <= i < |worklist| && worklist[i] == g;
      assert ProjectOutcome(env, worklist[i]).Returned?;
    }
    DisjointUnionSize(o.created, o.errored, o.skipped, resolvable);
  }

  lemma DisjointUnionSize<T>(a: set<T>, b: set<T>, c: set<T>, u: set<T>)
    requires a !! b && a !! c && b !! c
    requires forall x :: x in u <==> x in a || x in b || x in c
    ensures |a| + |b| + |c| == |u|
  {
    assert u == a + b + c;
    assert |a + b| == |a| + |b|;
    assert (a + b) !! c;
  }

  /** Normalisation leaves every client's project reference alone, so the
      worklist built from the normalised clients is the one built from the
      raw search results. */
  lemma {:induction false} WorklistIgnoresNormalization(results: seq<Client>)
    ensures Worklist(NormalizeAll(results)) == Worklist(results)
  {
    if results != [] {
      var normalized := NormalizeAll(results);
      ProjectOfNormalized(results[0]);
      assert normalized[0] == NormalizeClient(results[0]);
      assert normalized[1..] == NormalizeAll(results[1..]);
      WorklistIgnoresNormalization(results[1..]);
    }
  }

  lemma ProjectOfNormalized(c: Client)
    ensures ProjectOf(NormalizeClient(c)) == ProjectOf(c)
  {
    ProjectReferenceUntouched(c.props, c.id);
  }

  /** With the worklist built from the same clients, every id in it resolves,
      so no id of the worklist is dropped as unresolvable. */
  lemma {:induction false} WorklistResolves(clients: seq<Client>, gid: string)
    requires Worklist(clients).Returned? && gid in Worklist(clients).value
    ensures FindClient(clients, gid).Returned? && FindClient(clients, gid).value.Some?
  {
    var i :| 0 <= i < |clients| && ProjectOf(clients[i]) == Returned(Some(gid));
    if i > 0 && ProjectOf(clients[0]) != Returned(Some(gid)) {
      assert clients[1..][i - 1] == clients[i];
      assert Worklist(clients[1..]).Returned?;
      WorklistResolves(clients[1..], gid);
    }
  }

  /** A pass over the worklist built from its own client list puts every id
      of the worklist in exactly one of the three sets. */
  lemma WorklistIsCovered(env: Env)
    requires Worklist(env.clients).Returned?
    requires Reconcile(env, Worklist(env.clients).value).Returned?
    ensures var w := Worklist(env.clients).value;
            var o := Reconcile(env, w).value;
            forall g :: g in w <==> g in o.created + o.errored + o.skipped
  {
    var w := Worklist(env.clients).value;
    forall g | g in w
      ensures ProjectOutcome(env, g) != Returned(Unresolved)
    {
      WorklistResolves(env.clients, g);
    }
  }

  /** A creation response whose `gid` is `null` still passes the `'gid' not
      in` test: the task is attached as `None`, and if that does not raise,
      the project counts as created. */
  lemma NullGidCountsAsCreated(env: Env, gid: string, c: Client, name: string)
    requires FindClient(env.clients, gid) == Returned(Some(c)) && NameOf(c) == Returned(name)
    requires Decide(env.listTasks(gid), TaskName(name)) == Returned(false)
    requires CreateTask(name, c.props, env.isUrl, env.postTask) == Returned(Some(TaskRecord(Some(None))))
    requires !env.attachRaises(None, gid)
    ensures ProjectOutcome(env, gid) == Returned(Created)
  {
  }

  /** A project judged skipped never reaches creation: its verdict is the
      same whatever the creation and attachment calls would have answered. */
  lemma SkippedNeverCreates(env: Env, gid: string,
                            postTask: (string, Props) -> CreateResponse, attachRaises: (Option<string>, string) -> bool)
    requires ProjectOutcome(env, gid) == Returned(Skipped)
    ensures ProjectOutcome(env.(postTask := postTask, attachRaises := attachRaises), gid) == Returned(Skipped)
  {
  }

  /** Once a project's task exists and is open, a later pass skips it: the
      name looked for is the name the task was created with. */
  lemma CreatedTaskIsFound(env: Env, gid: string, c: Client, name: string, tasks: seq<TaskEntry>)
    requires FindClient(env.clients, gid) == Returned(Some(c)) && NameOf(c) == Returned(name)
    requires env.listTasks(gid) == PageBody(false, Some(tasks), false)
    requires TaskEntry(TaskName(name), false) in tasks
    ensures ProjectOutcome(env, gid) == Returned(Skipped)
  {
    OpenTaskIsFound(tasks, TaskName(name), false);
  }

  /** A second pass, against a tracker that lists every project's task as
      open, creates nothing and records no error. */
  lemma SecondPassCreatesNothing(env: Env, worklist: seq<string>)
    requires forall gid, c, name ::
               (gid in worklist && FindClient(env.clients, gid) == Returned(Some(c)) && NameOf(c) == Returned(name)) ==>
                 (&& env.listTasks(gid).PageBody? && !env.listTasks(gid).hasErrors && env.listTasks(gid).data.Some?
                  && TaskEntry(TaskName(name), false) in env.listTasks(gid).data.value)
    requires Reconcile(env, worklist).Returned?
    ensures Reconcile(env, worklist).value.created == {}
    ensures Reconcile(env, worklist).value.errored == {}
  {
    var o := Reconcile(env, worklist).value;
    forall gid | gid in worklist && ProjectOutcome(env, gid).Returned?
      ensures ProjectOutcome(env, gid) != Returned(Created) && ProjectOutcome(env, gid) != Returned(Errored)
    {
      var found := FindClient(env.clients, gid);
      if found.Returned? && found.value.Some? && NameOf(found.value.value).Returned? {
        var resp := env.listTasks(gid);
        OpenTaskIsFound(resp.data.value, TaskName(NameOf(found.value.value).value), resp.hasNextPage);
      }
    }
  }
}

=== FILE: retry.dfy ===
/** The `retry(attempts, delay, backoff)` decorator as a combinator over the
    outcomes of successive calls of the wrapped function.

    Instead of sleeping, the model returns the list of delays it would have
    slept, in order.
 */
module Retry {
  import opened Wrappers

  /** What one call of the wrapped function did. `BadStatus` is a returned
      `requests.Response` whose status makes `raise_for_status()` raise. */
  datatype CallOutcome<T> =
    | Value(v: T)
    | BadStatus(v: T)
    | Threw(exc: Error)

  /** The outcomes that lead to another attempt when the call is guarded. */
  predicate Retryable<T>(o: CallOutcome<T>) {
    o.BadStatus? || (o.Threw? && o.exc == HTTPError)
  }

  /** How the last call's outcome becomes the wrapper's outcome: a guarded
      call ends only on a non-retryable outcome; the final, unguarded call
      returns whatever the function returned and lets any exception through. */
  function Settle<T>(o: CallOutcome<T>, guarded: bool): Flow<T> {
    match o
    case Value(v) => Returned(v)
    case BadStatus(v) => if guarded then Raised(HTTPError) else Returned(v)
    case Threw(e) => Raised(e)
  }

  /** The number of calls the wrapper allows: `attempts - 1` guarded ones and
      one final one, and never fewer than one. */
  function MaxCalls(attempts: int): nat {
    if attempts > 1 then attempts else 1
  }

  function Pow(b: int, k: nat): int {
    if k == 0 then 1 else b * Pow(b, k - 1)
  }

  /** The delay slept before the (k+1)-th retry: the initial delay multiplied
      by the backoff factor once per earlier retry. */
  function Delay(delay: int, backoff: int, k: nat): int {
    if k == 0 then delay else Delay(delay, backoff, k - 1) * backoff
  }

  /** The delays form a geometric sequence. */
  lemma {:induction false} DelayIsGeometric(delay: int, backoff: int, k: nat)
    ensures Delay(delay, backoff, k) == delay * Pow(backoff, k)
  {
    if k > 0 {
      DelayIsGeometric(delay, backoff, k - 1);
      calc {
        Delay(delay, backoff, k);
        delay * Pow(backoff, k - 1) * backoff;
        { assert Pow(backoff, k) == backoff * Pow(backoff, k - 1); }
        delay * Pow(backoff, k);
      }
    }
  }

  /** Runs the wrapper; `call(k)` is the outcome of the k-th call (from 0).
      A retry whose delay is negative ends the run: `time.sleep` raises
      ValueError from inside the `except` clause, and nothing catches it. */
  method RunRetry<T>(attempts: int, delay: int, backoff: int, call: nat -> CallOutcome<T>)
    returns (result: Flow<T>, sleeps: seq<int>, calls: nat)
    ensures 1 <= calls <= MaxCalls(attempts)
    ensures |sleeps| == calls - 1
    ensures forall k :: 0 <= k < |sleeps| ==> sleeps[k] == delay * Pow(backoff, k) && sleeps[k] >= 0
    ensures forall k :: 0 <= k < calls - 1 ==> Retryable(call(k))
    ensures calls < MaxCalls(attempts) && Retryable(call(calls - 1)) ==> delay * Pow(backoff, calls - 1) < 0
    ensures result == if calls < MaxCalls(attempts) && Retryable(call(calls - 1)) then Raised(ValueError)
                      else Settle(call(calls - 1), calls < MaxCalls(attempts))
  {
    var localAttempts := attempts;
    var localDelay := delay;
    sleeps := [];
    calls := 0;
    while localAttempts > 1
      invariant localAttempts == attempts - calls
      invariant calls == 0 || localAttempts >= 1
      invariant |sleeps| == calls
      invariant forall k :: 0 <= k < calls ==> sleeps[k] == delay * Pow(backoff, k) && sleeps[k] >= 0
      invariant localDelay == Delay(delay, backoff, calls)
      invariant forall k :: 0 <= k < calls ==> Retryable(call(k))
      decreases localAttempts
    {
      var o := call(calls);
      calls := calls + 1;
      if !Retryable(o) {
        result := Settle(o, true);
        return;
      }
      DelayIsGeometric(delay, backoff, calls - 1);
      if localDelay < 0 {
        result := Raised(ValueError);
        return;
      }
      sleeps := sleeps + [localDelay];
      localAttempts := localAttempts - 1;
      localDelay := localDelay * backoff;
    }
    var o := call(calls);
    calls := calls + 1;
    result := Settle(o, false);
  }
}

=== FILE: scenarios.dfy ===
/** Concrete cases of the general contracts: normalisation of a record,
    the task name of a client, validation before creation, and one retry. */
module Scenarios {
  import opened Wrappers
  import opened Strings
  import opened Normalize
  import opened Tasks
  import opened Retry

  /** In a record whose website is empty and whose marketplace link is
      "amazon.com/x", the website becomes the record-view link and the
      marketplace link, which has no scheme, gets `http://` in front and
      reads "http://amazon.com/x". */
  lemma WebsiteFallbackAndSchemePrefix(props: Props, id: string, seller: string)
    requires seller == "amazon.com/x"
    requires "website" in props && props["website"] == Some("")
    requires "amazon_seller_link" in props && props["amazon_seller_link"] == Some(seller)
    ensures NormalizeProps(props, id)["website"] == Some(Fallback(id))
    ensures NormalizeProps(props, id)["amazon_seller_link"] == Some(Http + seller)
  {
    assert CheckedKeys[3] == "website" && CheckedKeys[1] == "amazon_seller_link";
    SchemeAdded(seller, id);
  }

  /** A link with no `<` or space that starts with three word characters,
      the first of them not `h`, only gets `http://` in front. */
  lemma SchemeAdded(seller: string, id: string)
    requires |seller| >= 3 && IsWordChar(seller[0]) && IsWordChar(seller[1]) && IsWordChar(seller[2])
    requires '<' !in seller && ' ' !in seller && seller[0] != 'h'
    ensures NormalizeLink(Some(seller), id) == Http + seller
  {
    WordPrefixSurvives(seller, 3);
    LongTextIsNotNa(StripNonWord(seller));
    assert seller[0] != Http[0] && seller[0] != Https[0];
  }

  /** Stripping keeps a prefix of word characters. */
  lemma {:induction false} WordPrefixSurvives(s: string, k: nat)
    requires k <= |s| && forall i :: 0 <= i < k ==> IsWordChar(s[i])
    ensures |StripNonWord(s)| >= k
  {
    if k > 0 {
      WordPrefixSurvives(s[1..], k - 1);
    }
  }

  lemma LongTextIsNotNa(s: string)
    requires |s| >= 3
    ensures Lower(s) != "na"
  {
  }

  /** A value with a space is replaced even when it carries a scheme. */
  lemma SpaceBeatsScheme(id: string)
    ensures NormalizeLink(Some("https://a b"), id) == Fallback(id)
  {
    assert "https://a b"[9] == ' ';
  }

  /** "N/A" counts as no value. */
  lemma NotApplicableIsFallback(id: string)
    ensures NormalizeLink(Some("N/A"), id) == Fallback(id)
  {
    assert StripNonWord("N/A") == "NA";
    assert Lower("NA") == "na";
  }

  /** The client name "Acme Corp - US" gives the task name "Acme Corp"
      followed by the suffix, that is
      "Acme Corp - Image/Design Task Type - ASIN - Product Name". */
  lemma AcmeTaskName(name: string)
    requires name == "Acme Corp - US"
    ensures TaskName(name) == "Acme Corp" + TaskNameSuffix
  {
    var head, tail := "Acme Corp", " - US";
    assert name == head + tail;
    NoDashNoSeparator(head);
    assert tail[..|Separator|] == Separator;
    TruncateBeforeSuffix(head, tail);
  }

  /** With every other required property valid, an empty design brief stops
      validation at `design_brief` as missing. */
  lemma EmptyDesignBriefIsMissing(isUrl: string -> bool, link: string)
    requires link != "" && isUrl(link)
    ensures Validate(map["govisually_link" := Some(link), "amazon_seller_link" := Some(link),
                         "secondary_user_email" := Some(link), "google_folder" := Some(link),
                         "website" := Some(link), "design_brief" := Some("")], isUrl)
            == Some(Invalid("design_brief", MissingOrEmpty))
  {
    var m := map["govisually_link" := Some(link), "amazon_seller_link" := Some(link),
                 "secondary_user_email" := Some(link), "google_folder" := Some(link),
                 "website" := Some(link), "design_brief" := Some("")];
    forall i | 0 <= i < 5 ensures CheckKey(m, RequiredKeys[i], isUrl).None? {
      assert RequiredKeys[i] in m && m[RequiredKeys[i]] == Some(link);
    }
    assert CheckKey(m, RequiredKeys[5], isUrl) == Some(MissingOrEmpty);
  }

  /** One transient HTTP error followed by success, under the script's
      policy of five attempts: two calls, one delay of the initial length. */
  method OneTransientFailure(delay: int, backoff: int) returns (result: Flow<nat>, sleeps: seq<int>, calls: nat)
    requires delay >= 0
    ensures calls == 2 && sleeps == [delay] && result == Returned(1)
  {
    var call := (k: nat) => if k == 0 then Threw(HTTPError) else Value(k);
    result, sleeps, calls := RunRetry(5, delay, backoff, call);
    assert !Retryable(call(1));
  }

  /** With a negative initial delay, the first HTTP error ends the run: the
      sleep raises ValueError before any second call. */
  method NegativeDelayRaises(delay: int, backoff: int) returns (result: Flow<nat>, sleeps: seq<int>, calls: nat)
    requires delay < 0
    ensures calls == 1 && sleeps == [] && result == Raised(ValueError)
  {
    var call := (k: nat) => if k == 0 then Threw(HTTPError) else Value(k);
    result, sleeps, calls := RunRetry(5, delay, backoff, call);
    FirstSleepIsDelay(sleeps, delay, backoff);
  }

  lemma FirstSleepIsDelay(sleeps: seq<int>, delay: int, backoff: int)
    requires forall k :: 0 <= k < |sleeps| ==> sleeps[k] == delay * Pow(backoff, k) && sleeps[k] >= 0
    ensures |sleeps| > 0 ==> sleeps[0] == delay >= 0
  {
    if |sleeps| > 0 {
      assert sleeps[0] == delay * Pow(backoff, 0);
    }
  }
}

=== FILE: strings.dfy ===
/** String helpers with the meaning the script relies on.

    Characters are treated as ASCII: a word character (Python's `\w`) is a
    letter, a digit or `_`, and lower-casing only touches `A`..`Z`.
 */
module Strings {

  /** Python's `\w` restricted to ASCII. */
  predicate IsWordChar(c: char) {
    ('a' <= c <= 'z') || ('A' <= c <= 'Z') || ('0' <= c <= '9') || c == '_'
  }

  /** `re.sub(r'\W+', '', s)`: every non-word character removed, the rest kept in order. */
  function StripNonWord(s: string): (r: string)
    ensures |r| <= |s|
    ensures forall i :: 0 <= i < |r| ==> IsWordChar(r[i])
    ensures (forall i :: 0 <= i < |s| ==> IsWordChar(s[i])) ==> r == s
    ensures (forall i :: 0 <= i < |s| ==> !IsWordChar(s[i])) ==> r == []
  {
    if s == [] then []
    else (if IsWordChar(s[0]) then [s[0]] else []) + StripNonWord(s[1..])
  }

  /** Stripping distributes over concatenation. */
  lemma {:induction false} StripNonWordAppend(a: string, b: string)
    ensures StripNonWord(a + b) == StripNonWord(a) + StripNonWord(b)
  {
    if a == [] {
      assert a + b == b;
    } else {
      assert (a + b)[1..] == a[1..] + b;
      StripNonWordAppend(a[1..], b);
    }
  }

  function LowerChar(c: char): char {
    if 'A' <= c <= 'Z' then (c as int + 32) as char else c
  }

  /** `str.lower()` on ASCII text. */
  function Lower(s: string): (r: string)
    ensures |r| == |s|
    ensures forall i :: 0 <= i < |r| ==> !('A' <= r[i] <= 'Z')
    ensures forall i :: 0 <= i < |s| && !('A' <= s[i] <= 'Z') ==> r[i] == s[i]
    ensures forall i :: 0 <= i < |s| && 'A' <= s[i] <= 'Z' ==> r[i] as int == s[i] as int + 32
  {
    seq(|s|, i requires 0 <= i < |s| => LowerChar(s[i]))
  }

  /** `s.startswith(p)`. */
  predicate StartsWith(s: string, p: string) {
    |p| <= |s| && s[..|p|] == p
  }

  /** The name separator. */
  const Separator: string := " -"

  /** The separator `" -"` occurs in `s` starting at index `i`. */
  predicate SeparatorAt(s: string, i: int) {
    0 <= i && i + 1 < |s| && s[i] == ' ' && s[i + 1] == '-'
  }

  /** `' -' in s`. */
  predicate HasSeparator(s: string) {
    exists i | 0 <= i < |s| :: SeparatorAt(s, i)
  }

  /** `s.split(' -')[0]`: the part of `s` before the first `" -"`, or all of `s`. */
  function TruncateAtSeparator(s: string): (r: string)
    ensures r <= s
    ensures !HasSeparator(r)
    ensures HasSeparator(s) ==> SeparatorAt(s, |r|)
    ensures !HasSeparator(s) ==> r == s
  {
    if |s| < 2 then
      s
    else if s[0] == ' ' && s[1] == '-' then
      assert SeparatorAt(s, 0);
      []
    else
      var rest := TruncateAtSeparator(s[1..]);
      ConsPreservesTruncation(s, rest);
      [s[0]] + rest
  }

  /** One step of `TruncateAtSeparator`: if `rest` is the truncation of `s[1..]`
      and `s` does not start with the separator, `[s[0]] + rest` is the
      truncation of `s`. */
  lemma ConsPreservesTruncation(s: string, rest: string)
    requires |s| >= 2 && !(s[0] == ' ' && s[1] == '-')
    requires rest <= s[1..]
    requires !HasSeparator(rest)
    requires HasSeparator(s[1..]) ==> SeparatorAt(s[1..], |rest|)
    requires !HasSeparator(s[1..]) ==> rest == s[1..]
    ensures [s[0]] + rest <= s
    ensures !HasSeparator([s[0]] + rest)
    ensures HasSeparator(s) ==> SeparatorAt(s, |rest| + 1)
    ensures !HasSeparator(s) ==> [s[0]] + rest == s
  {
    var r := [s[0]] + rest;
    assert r[1..] == rest;
    forall i | SeparatorAt(r, i) ensures false {
      if i != 0 {
        assert SeparatorAt(rest, i - 1);
      }
    }
    if HasSeparator(s) {
      var j :| 0 <= j < |s| && SeparatorAt(s, j);
      assert SeparatorAt(s[1..], j - 1);
    } else {
      forall j | SeparatorAt(s[1..], j) ensures false {
        assert SeparatorAt(s, j + 1);
      }
    }
  }

  /** Text without a dash has no separator. */
  lemma NoDashNoSeparator(s: string)
    requires '-' !in s
    ensures !HasSeparator(s)
  {
  }

  /** Truncating text that already has no separator changes nothing. */
  lemma TruncateIdempotent(s: string)
    ensures TruncateAtSeparator(TruncateAtSeparator(s)) == TruncateAtSeparator(s)
  {
  }

  /** Appending text that begins with the separator to separator-free text and
      truncating again gives back the separator-free text. */
  lemma TruncateBeforeSuffix(r: string, suffix: string)
    requires !HasSeparator(r)
    requires StartsWith(suffix, Separator)
    ensures TruncateAtSeparator(r + suffix) == r
  {
    var s := r + suffix;
    assert SeparatorAt(s, |r|);
    var t := TruncateAtSeparator(s);
    assert SeparatorAt(s, |t|) && !SeparatorAt(r, |t|);
    if |t| > |r| + 1 {
      assert SeparatorAt(t, |r|);
    }
    assert |t| == |r|;
    assert t == s[..|r|];
  }
}

=== FILE: tasks.dfy ===
/** What `create_task` decides without the network: the task name, the
    pre-request validation of the record, and the reading of the response.
    The request itself is an oracle from payload to response. */
module Tasks {
  import opened Wrappers
  import opened Strings
  import opened Normalize

  /** Appended to the cut client name: `" - Image/Design Task Type - ASIN - Product Name"`. */
  const TaskNameSuffix: string := Separator + " Image/Design Task Type - ASIN - Product Name"

  /** The name of the design task for a client; the same formula is used for
      the existence check and for the creation payload. */
  function TaskName(clientName: string): (r: string)
    ensures |r| >= |TaskNameSuffix| && r[|r| - |TaskNameSuffix|..] == TaskNameSuffix
    ensures r[..|r| - |TaskNameSuffix|] <= clientName && !HasSeparator(r[..|r| - |TaskNameSuffix|])
    ensures HasSeparator(clientName) ==> SeparatorAt(clientName, |r| - |TaskNameSuffix|)
    ensures !HasSeparator(clientName) ==> r == clientName + TaskNameSuffix
  {
    TruncateAtSeparator(clientName) + TaskNameSuffix
  }

  /** Cutting the task name at its first `" -"` gives back the cut client
      name, and cutting the client name first does not change the task name. */
  lemma TaskNameRoundTrip(clientName: string)
    ensures TruncateAtSeparator(TaskName(clientName)) == TruncateAtSeparator(clientName)
    ensures TaskName(TruncateAtSeparator(clientName)) == TaskName(clientName)
  {
    assert TaskNameSuffix[..|Separator|] == Separator;
    TruncateBeforeSuffix(TruncateAtSeparator(clientName), TaskNameSuffix);
    TruncateIdempotent(clientName);
  }

  /** The task name built from a normalised name equals the one built from
      the raw name. */
  lemma TaskNameIgnoresNameNormalization(clientName: string)
    ensures TaskName(NormalizeName(Some(clientName)).value) == TaskName(clientName)
  {
    TaskNameRoundTrip(clientName);
  }

  /** The properties `create_task` requires, in the order it checks them. */
  const RequiredKeys: seq<string> :=
    ["govisually_link", "amazon_seller_link", "secondary_user_email", "google_folder", "website", "design_brief"]

  /** The one required property that is not checked as a URL. */
  const EmailKey: string := "secondary_user_email"

  datatype Reason = MissingOrEmpty | InvalidUrl

  /** Why validation stopped, and at which property. */
  datatype Invalid = Invalid(key: string, reason: Reason)

  /** The two tests applied to one required property, in order. `isUrl`
      stands for the external URL validator, whose grammar is not modelled. */
  function CheckKey(props: Props, key: string, isUrl: string -> bool): (r: Option<Reason>)
    ensures r == Some(MissingOrEmpty) <==> key !in props || props[key].None? || props[key].value == ""
    ensures r == Some(InvalidUrl) <==>
              key in props && props[key].Some? && props[key].value != "" && key != EmailKey && !isUrl(props[key].value)
  {
    var v := Lookup(props, key);
    if !Truthy(v) then Some(MissingOrEmpty)
    else if key != EmailKey && !isUrl(v.value) then Some(InvalidUrl)
    else None
  }

  /** Scans `keys` in order and stops at the first property that fails. */
  function FirstInvalid(keys: seq<string>, props: Props, isUrl: string -> bool): (r: Option<Invalid>)
    ensures r.None? <==> forall i :: 0 <= i < |keys| ==> CheckKey(props, keys[i], isUrl).None?
    ensures r.Some? ==>
              exists i :: 0 <= i < |keys| && keys[i] == r.value.key
                          && CheckKey(props, keys[i], isUrl) == Some(r.value.reason)
                          && forall j :: 0 <= j < i ==> CheckKey(props, keys[j], isUrl).None?
  {
    if keys == [] then
      None
    else
      match CheckKey(props, keys[0], isUrl)
      case Some(reason) =>
        Some(Invalid(keys[0], reason))
      case None =>
        assert forall i :: 1 <= i < |keys| ==> keys[i] == keys[1..][i - 1];
        FirstInvalid(keys[1..], props, isUrl)
  }

  /** The validation loop at the top of `create_task`. */
  function Validate(props: Props, isUrl: string -> bool): (r: Option<Invalid>)
    ensures r.None? <==> forall k :: k in RequiredKeys ==> CheckKey(props, k, isUrl).None?
    ensures r.Some? ==> r.value.key in RequiredKeys && CheckKey(props, r.value.key, isUrl) == Some(r.value.reason)
    ensures r.Some? && r.value.key == EmailKey ==> r.value.reason == MissingOrEmpty
  {
    FirstInvalid(RequiredKeys, props, isUrl)
  }

  /** After normalisation every required property is present and non-empty,
      so validation can only fail on the URL test, never on the missing test. */
  lemma NormalizedNeverMissing(props: Props, id: string, isUrl: string -> bool)
    ensures Validate(NormalizeProps(props, id), isUrl).None?
            || Validate(NormalizeProps(props, id), isUrl).value.reason == InvalidUrl
  {
    var p := NormalizeProps(props, id);
    var r := Validate(p, isUrl);
    if r.Some? {
      var i :| 0 <= i < |RequiredKeys| && RequiredKeys[i] == r.value.key
               && CheckKey(p, RequiredKeys[i], isUrl) == Some(r.value.reason)
               && forall j :: 0 <= j < i ==> CheckKey(p, RequiredKeys[j], isUrl).None?;
      assert RequiredKeys[i] in CheckedKeys;
    }
  }

  /** The created task, as far as the caller reads it: its `gid` entry.
      `None` is a missing `gid` key, `Some(None)` a `gid` holding `null`. */
  datatype TaskRecord = TaskRecord(gid: Option<Option<string>>)

  /** The response to the creation request: the call raised, or a JSON body
      that may hold an `errors` key and may hold a `data` object. */
  datatype CreateResponse =
    | CreateRaised(exc: Error)
    | CreateBody(hasErrors: bool, data: Option<TaskRecord>)

  /** `create_task`: validate, then send the payload named `TaskName(name)`
      and read the response. `Returned(None)` is the source's `None`. */
  function CreateTask(name: string, props: Props, isUrl: string -> bool,
                      post: (string, Props) -> CreateResponse): (r: Flow<Option<TaskRecord>>)
    ensures Validate(props, isUrl).Some? ==> r == Returned(None)
    ensures r.Raised? <==> Validate(props, isUrl).None? && post(TaskName(name), props).CreateRaised?
    ensures (r.Returned? && r.value.Some?) <==>
              && Validate(props, isUrl).None?
              && post(TaskName(name), props).CreateBody?
              && !post(TaskName(name), props).hasErrors
              && post(TaskName(name), props).data.Some?
    ensures r.Returned? && r.value.Some? ==> r.value == post(TaskName(name), props).data
  {
    if Validate(props, isUrl).Some? then
      Returned(None)
    else
      match post(TaskName(name), props)
      case CreateRaised(e) => Raised(e)
      case CreateBody(hasErrors, data) =>
        if hasErrors then Returned(None)
        else if data.Some? then Returned(data)
        else Returned(None)
  }
}

=== FILE: wrappers.dfy ===
/** Result shapes shared by the whole model.

    The script is Python: an operation either returns a value or raises.
    `Flow` records which of the two happened, and `Error` names the kind of
    exception, because the reconciliation loop treats an exception raised
    inside its `try` block differently from one raised outside it.
 */
module Wrappers {

  /** A value that may be absent: a missing dictionary entry, or JSON `null`. */
  datatype Option<+T> = None | Some(value: T)

  /** The exception kinds the script can raise. */
  datatype Error =
    | HTTPError       // requests.exceptions.HTTPError
    | KeyError        // indexing a dictionary with a missing key
    | IndexError      // `parts[-2]` on a list with fewer than two parts
    | TypeError       // calling a function with the wrong number of arguments
    | AttributeError  // calling `.split` on `None`
    | ValueError      // `time.sleep` with a negative length
    | OtherError      // anything else a collaborator may raise

  /** The outcome of one Python call: it returned a value or it raised. */
  datatype Flow<+T> = Returned(value: T) | Raised(exc: Error)
}
